=== FILE: README.md ===
# find_largest_files, modelled in Dafny

`find_largest_files.py` lists the regular files under a directory, largest
first. It walks the tree (recursively by default), sizes every regular file
and remembers the files whose `stat` raised `OSError`. It then sorts the sized
files stably by size, largest first, and keeps the first `-n` of them (with
Python slice semantics). Finally it writes a header and one line per file to
standard output or to the `--output` file. A line whose path the output
encoding rejects is written again with the path rendered lossily, and is
remembered for the error report.

The model has six modules:

- `Types` (types.dfy): the entities.
  - An `Entry` is what the traversal yields: a path, whether it is a regular file, and its `stat` outcome.
  - A `FileSize` is the `(size, path)` pair.
  - A `FileSystem` maps each directory to its recursive and its direct listing.
  - `Args` holds the command-line arguments after parsing.
- `SizeOrder` (size_order.dfy): the sort at line 33.
  - `SortDesc` is the functional reference: an insertion sort, characterised as the unique stable sort by size.
  - `SortBySizeDescending` sorts an array in place and is proved equal to it.
- `Scanner` (scanner.dfy): `find_largest_files`, a loop that partitions the traversal, then the sort.
- `SizeFormat` (size_format.dfy): `format_size`, modelled as the value and unit it renders.
- `Reporter` (reporter.dfy): `print_file_sizes`.
  - It works over a `Console` object whose standard output (`stdout`) and files (`files`) its methods update.
  - The environment's verdicts are fixed in its `device`: which output names `open` accepts, and which paths each destination's encoding rejects.
- `Driver` (driver.dfy): `main`, as written (`Run`, specified by `MainOutcome`) and corrected (`RunFixed`, specified by `FixedMainOutcome`).

Two places where the repository does something other than what it evidently means to do, one in the code and one in its tests:

- **Access errors are never reported.** `print_error_report` has a section for the files whose `stat` failed (lines 106-116), and `main` calls it when that list is non-empty (line 210). That list is always empty by then; see Findings.
- **The tests read the result as one list.** The tests iterate over the result of `find_largest_files` as if it were a single list of pairs. The function returns two lists, and the model follows the function.

## Model

| member | source | states |
|---|---|---|
| SizeOrder.Insert | find_largest_files.py:33 | one step of the stable sort: puts a later entry behind every entry at least as large; the result is one entry longer |
| SizeOrder.SortDesc | find_largest_files.py:33 | the reference for the sort: insertion of the input's entries from first to last; the result has the input's length |
| SizeOrder.InsertSorted | find_largest_files.py:33 | inserting into a list sorted largest first keeps it sorted |
| SizeOrder.InsertMembers | find_largest_files.py:33 | an insertion step adds the new entry and nothing else |
| SizeOrder.InsertMultiset | find_largest_files.py:33 | an insertion step adds exactly one copy of the entry |
| SizeOrder.InsertAt | find_largest_files.py:33 | the entry lands right behind the leading run of entries at least as large |
| SizeOrder.SortDescSorted | find_largest_files.py:33 | the sort's result is ordered by size, largest first |
| SizeOrder.SortDescPermutation | find_largest_files.py:33 | the sort's result is a permutation of its input |
| SizeOrder.SortDescStable | find_largest_files.py:33 | for every size, the entries of that size keep their input order (`sort` is stable with `reverse=True`) |
| SizeOrder.WithSizeAppend | find_largest_files.py:33 | the entries of one size in a concatenation are those of each part, in order |
| SizeOrder.WithSizeAbsent | find_largest_files.py:33 | a list with no entry of a size has none of that size to keep in order |
| SizeOrder.WithSizeInsert | find_largest_files.py:33 | inserting an entry appends it to the entries of its size, leaving the other sizes alone |
| SizeOrder.WithSizeMember | find_largest_files.py:33 | the entries selected for a size come from the list and have that size |
| SizeOrder.WithSizeHead | find_largest_files.py:33 | a non-empty list has at least one entry of its first entry's size |
| SizeOrder.SortedDescUnique | find_largest_files.py:33 | two lists sorted largest first that agree on the order within every size are equal |
| SizeOrder.SortDescIsTheStableSort | find_largest_files.py:33 | a list is the stable descending sort of the input if and only if it equals `SortDesc` of it |
| SizeOrder.ShiftedIsInsert | find_largest_files.py:33 | the array left by one shifting pass reads as the functional insertion |
| SizeOrder.InsertLast | find_largest_files.py:33 | moves one element into the sorted prefix in place, as `Insert` does, and leaves the rest of the array unchanged |
| SizeOrder.SortBySizeDescending | find_largest_files.py:33 | sorts the array in place into `SortDesc` of its old contents |
| Scanner.FindLargestFiles | find_largest_files.py:11-34 | returns the sized files stably sorted by size, largest first, as a permutation of the scan, and the failed paths in traversal order |
| Scanner.SizedFiles | find_largest_files.py:19-23 | the `(size, path)` pairs the loop appends, in traversal order; never more than the traversal's entries |
| Scanner.FailedFiles | find_largest_files.py:19-29 | the paths the loop records on OSError, in traversal order; never more than the traversal's entries |
| Scanner.SizedSnoc | find_largest_files.py:19-22 | one more entry extends the sized files by that entry's pair, if it has one |
| Scanner.FailedSnoc | find_largest_files.py:19-29 | one more entry extends the failed paths by that entry's path, if its stat failed |
| Scanner.SizedAppend | find_largest_files.py:19-22 | the scan of a concatenated traversal concatenates the sized files |
| Scanner.FailedAppend | find_largest_files.py:19-29 | the scan of a concatenated traversal concatenates the failed paths |
| Scanner.SizedFilesExactly | find_largest_files.py:20-22 | a pair is sized if and only if the traversal holds a regular file with that path whose stat gave that size |
| Scanner.FailedFilesExactly | find_largest_files.py:20-29 | a path is in the error list if and only if the traversal holds a regular file with that path whose stat raised OSError |
| Scanner.EveryFileAccountedOnce | find_largest_files.py:19-30 | each regular file goes into exactly one of the two lists |
| Scanner.ErrorsDisjointFromSized | find_largest_files.py:20-29 | with distinct traversal paths, no sized path is also an access error |
| Scanner.ScanOne | find_largest_files.py:19-30 | a single-entry traversal yields exactly that entry's contribution |
| Scanner.NonFileIgnored | find_largest_files.py:20 | directories and other non-files change neither list |
| Scanner.ThreeFilesExample | tests/test_find_largest_files.py:18-28 | files of 1, 2 and 3 bytes come out as c.txt, b.txt, a.txt |
| SizeFormat.UnitIndex | find_largest_files.py:39-43 | the unit the loop stops at: a valid index into the unit list, whose next power of 1024 exceeds the size unless it is PB, and whose own power is at most the size unless it is B |
| SizeFormat.ScaledBy | find_largest_files.py:42 | the size after k divisions by 1024: never negative, and positive for a positive size |
| SizeFormat.HumanOf | find_largest_files.py:37-43 | the value and unit `format_size` renders: the unit is one of B to PB and the value is never negative |
| SizeFormat.Pow1024Monotone | find_largest_files.py:39-43 | higher units stand for larger powers of 1024 |
| SizeFormat.UnitIndexExactly | find_largest_files.py:39-43 | unit k is chosen if and only if 1024^k <= size < 1024^(k+1), B taking all smaller sizes and PB all larger ones |
| SizeFormat.UnitIndexMonotone | find_largest_files.py:39-43 | a larger size never gets a smaller unit |
| SizeFormat.ScaledByExact | find_largest_files.py:42 | the value after k divisions, times 1024^k, is the byte count |
| SizeFormat.ProductCompare | find_largest_files.py:40 | comparing the scaled value is comparing the byte count against the scaled bound |
| SizeFormat.ScaledByCompare | find_largest_files.py:40 | the loop's `size < 1024.0` test holds if and only if the byte count is below the next power of 1024 |
| SizeFormat.HumanOfScaled | find_largest_files.py:37-43 | the rendered value times its unit is the size; it is below 1024 unless the unit is PB, and at least 1 once the unit is above B |
| SizeFormat.FormatSize | find_largest_files.py:37-43 | the division loop returns the value and unit `HumanOf` specifies |
| Reporter.OutputChoice | find_largest_files.py:141-153 | with no `--output` name, or an empty one (falsy at line 142), the header and one line per entry go to standard output and nothing is saved; with a name that opens, they are saved under that name and standard output gets only the "saved to" line (line 183) |
| Reporter.Rows | find_largest_files.py:155-179 | the listing lines: one per entry, and every one a listing line |
| Reporter.EncodeFailures | find_largest_files.py:169-171 | the entries whose line raised UnicodeEncodeError, in listing order; never more than the entries listed |
| Reporter.ReportOf | find_largest_files.py:134-185 | what `print_file_sizes` prints, saves and returns: the access-error list is always empty; a file is saved exactly when the output file opened, and then only the "saved to" line is printed; at most one unicode error per entry |
| Reporter.Console.constructor | find_largest_files.py:134-185 | a console starts with nothing printed and no files written |
| Reporter.Console.Print | find_largest_files.py:146 | appends one line to standard output and touches no file |
| Reporter.Console.Open | find_largest_files.py:141-147 | succeeds exactly on the names the device accepts, leaving the file empty |
| Reporter.Console.WriteLine | find_largest_files.py:149-153 | appends to the destination exactly when the line encodes, and otherwise changes nothing |
| Reporter.WriteEntry | find_largest_files.py:163-179 | writes the entry's line, or the lossy line when the path is rejected, and reports whether it was rejected |
| Reporter.ListingStep | find_largest_files.py:156-179 | one more entry adds its line to the listing and, when its path is rejected, itself to `unicode_errors` |
| Reporter.WriteListing | find_largest_files.py:155-179 | the destination receives the header and one line per entry, and `unicode_errors` is the rejected entries in order |
| Reporter.PrintFileSizes | find_largest_files.py:134-185 | prints, saves and returns what `ReportOf` says; the returned access-error list is always empty |
| Reporter.RowsMatchEntries | find_largest_files.py:155-179 | one listing line per entry, in order, lossy exactly when its path is rejected |
| Reporter.EncodeFailuresExactly | find_largest_files.py:169-171 | an entry is in `unicode_errors` if and only if it is listed and its path is rejected |
| Reporter.EncodeFailuresCount | find_largest_files.py:169-171 | `unicode_errors` has one element per rejected listing line |
| Reporter.ReportWhenOpenFails | find_largest_files.py:143-147 | an unopenable output file gives one error line, no saved file and two empty lists |
| Reporter.ReportListing | find_largest_files.py:155-185 | otherwise the header and one line per entry reach the destination, `unicode_errors` is the rejected entries and the access-error list is empty |
| Driver.TakePrefix | find_largest_files.py:201-202 | Python's `s[:n]`: a prefix of length min(n, len) for n >= 0, or max(len + n, 0) for n < 0 |
| Driver.Limit | find_largest_files.py:201-202 | the listing is a prefix of the sorted files, and all of them when `-n` is not given |
| Driver.Listed | find_largest_files.py:196-202 | the entries `main` hands to the reporter: a prefix of the stable descending sort of the sized files |
| Driver.MainOutcome | find_largest_files.py:187-213 | `main` as written: the exit status is 1 exactly when the argument is not a directory, something is always printed, and a file is saved only for a directory and a named output file |
| Driver.FixedMainOutcome | find_largest_files.py:187-213 | `main` with the scan's access errors kept: the same exit status and saved file as written, and the same output whenever the directory exists and no stat failed |
| Driver.TakePrefixKeepsLargest | find_largest_files.py:201-202 | no entry cut off by the limit is larger than one kept |
| Driver.ListedAreTopN | find_largest_files.py:196-202 | with `-n N`, the listing is the N largest sized files (all of them if fewer), in stable order |
| Driver.ScanAndLimit | find_largest_files.py:196-202 | the scan followed by the limit yields `Listed` and the scan's failed paths |
| Driver.Run | find_largest_files.py:187-213 | exit code, printed lines and saved file are those of `MainOutcome` |
| Driver.RunFixed | find_largest_files.py:187-213 | exit code, printed lines and saved file are those of `FixedMainOutcome` |
| Driver.ExitStatus | find_largest_files.py:192-194 | when the argument is not a directory, that error is the whole output and nothing is saved |
| Driver.NoFilesFoundExactly | find_largest_files.py:204-206 | "no files found" is the whole output exactly when the directory exists and the limited listing is empty; the exit status is then 0 and nothing is saved |
| Driver.AccessErrorsNeverReported | find_largest_files.py:208-211 | as written, the error report appears exactly when a line was rejected, and it never lists an access error |
| Driver.AccessErrorDroppedExample | find_largest_files.py:208-211 | a directory with a readable file and an unreadable one prints the listing alone, though the scan recorded the unreadable file |
| Driver.FixedReportsAccessErrors | find_largest_files.py:196-211 | corrected, whenever the listing is printed and some stat failed, the output ends with an error report naming exactly the failed paths |

## Left out

- Argument parsing (`parse_args`, lines 46-93) is not modelled. `Args` holds its result.
- The real filesystem is not modelled. `FileSystem` gives each directory's traversal as data. `is_file`, `rglob` and `glob` raising is not modelled.
- `Entry.isFile` and `Entry.stat` are independent in the model, although `is_file()` at line 20 stats the path itself. An `Entry(p, true, OSError)` stands for a path whose `stat` succeeded inside `is_file()` and then failed at line 22, for example because the file was removed in between. In the source, a `stat` that fails persistently never reaches lines 27-29. A missing file or a broken symlink makes `is_file()` return False, so it is skipped silently. Other errors, such as permission denied, either raise out of line 20, which no `try` covers, or make `is_file()` return False, depending on the Python version.
- The progress messages (lines 24-26 and 31-32) are not modelled, and the model assumes these prints never raise. In the source they can raise OSError, for example BrokenPipeError once a reader such as `head` has exited, or BlockingIOError on a non-blocking standard output.
  - The print at line 26 is inside the `try` of lines 21-29. If it raises, the file is already in `file_sizes` (line 22) and is then also added to `error_paths` (line 29).
  - The print at line 32 is outside any `try`. If it raises, `find_largest_files` raises instead of returning.
- Scanner.EveryFileAccountedOnce and Scanner.ErrorsDisjointFromSized: hold for the source only when the progress prints succeed. When the print at line 26 raises, a file lands in both lists.
- `print_error_report` (lines 96-131) is modelled only as one `ErrorReport` line carrying its two lists. Its text is not modelled.
- `format_size` is modelled as the value and unit it renders. The `.1f` formatting and the width-10 right alignment are not modelled.
- Sizes are reals, and dividing by 1024 is exact. Floating-point rounding of sizes beyond 2^53 bytes is not modelled.
- The `repr(path)` fallback (lines 158-161) is not modelled, because `str` of a `Path` does not raise.
- Reporter.WriteEntry: assumes the lossy line always encodes, and that messages other than listing lines always encode. The source does not catch a second UnicodeEncodeError.
- Scanner.FindLargestFiles: `file_count` is not returned. Its agreement with the number of sized files is checked by an assertion inside the method, not stated in its contract.
- Closing the output file and any write error other than UnicodeEncodeError are not modelled.

## Findings

| source | as written | input that shows it | evidently intended | confidence | as-written member | corrected member |
|---|---|---|---|---|---|---|
| find_largest_files.py:208 | `main` overwrites the access errors from the scan with the list `print_file_sizes` returns, which is always empty (lines 138, 185). Files whose `stat` failed at line 22 are therefore never reported. | a directory holding `a` (1 byte) and `b`, where `b` passes `is_file()` but its `stat` at line 22 raises OSError, for example because it is removed in between: the output is the header and `a`'s line, with no error report | the error report lists every file whose `stat` failed: `print_error_report` has a branch that exists only to print those paths (lines 106-116), and `main` tests `error_paths` before calling it (line 210) | high, not executed | Driver.AccessErrorDroppedExample | Driver.FixedReportsAccessErrors |

=== FILE: driver.dfy ===
/** `main`: checks the directory, scans it, keeps the first N entries when
    `-n` is given, reports them, and triggers the error report. */
module Driver {
  import opened Types
  import opened SizeOrder
  import opened Scanner
  import opened Reporter

  /** What the traversal yields: `rglob("*")` when recursive, else `glob("*")`. */
  function Traversal(walk: Walk, recursive: bool): seq<Entry>
  {
    if recursive then walk.descendants else walk.children
  }

  /** Python's `s[:n]`: the first `n` entries, and for a negative `n` all but
      the last `-n`, never fewer than none. */
  function TakePrefix(s: seq<FileSize>, n: int): (r: seq<FileSize>)
    ensures |r| <= |s| && r == s[..|r|]
    ensures n >= 0 ==> |r| == if n < |s| then n else |s|
    ensures n < 0 ==> |r| == if |s| + n > 0 then |s| + n else 0
  {
    if n >= 0 then (if n < |s| then s[..n] else s)
    else if |s| + n > 0 then s[..|s| + n]
    else []
  }

  /** The entries `main` lists: `file_sizes[:args.num]` when `-n` is given. */
  function Limit(fileSizes: seq<FileSize>, num: Option<int>): (r: seq<FileSize>)
    ensures |r| <= |fileSizes| && r == fileSizes[..|r|]
    ensures num.None? ==> r == fileSizes
  {
    if num.Some? then TakePrefix(fileSizes, num.value) else fileSizes
  }

  /** The error report section, printed when either list is non-empty. */
  function ErrorSection(unicodeErrors: seq<FileSize>, accessErrors: seq<Path>): seq<Line>
  {
    if accessErrors != [] || unicodeErrors != [] then [ErrorReport(unicodeErrors, accessErrors)] else []
  }

  /** What one run does: the exit code, the lines printed, the file saved. */
  datatype Outcome = Outcome(code: int, stdout: seq<Line>, saved: Option<Saved>)

  /** The scan of the directory named on the command line. */
  function EntriesOf(args: Args, fs: FileSystem): seq<Entry>
    requires args.directory in fs.dirs
  {
    Traversal(fs.dirs[args.directory], !args.noRecursive)
  }

  /** The entries `main` hands to the reporter. */
  function Listed(args: Args, fs: FileSystem): (r: seq<FileSize>)
    requires args.directory in fs.dirs
    ensures |r| <= |SizedFiles(EntriesOf(args, fs))|
    ensures r == SortDesc(SizedFiles(EntriesOf(args, fs)))[..|r|]
  {
    Limit(SortDesc(SizedFiles(EntriesOf(args, fs))), args.num)
  }

  /** `main` as written: the access-error list passed to the error report is
      the one `print_file_sizes` returns. */
  function MainOutcome(args: Args, fs: FileSystem, device: Device): (o: Outcome)
    ensures o.code == (if args.directory in fs.dirs then 0 else 1)
    ensures o.stdout != []
    ensures o.saved.Some? ==> args.directory in fs.dirs && DestinationOf(args).ToFile?
  {
    if args.directory !in fs.dirs then Outcome(1, [NotADirectory(args.directory)], None)
    else
      var listed := Listed(args, fs);
      if listed == [] then Outcome(0, [NoFilesFound(args.directory)], None)
      else
        var r := ReportOf(listed, args, device);
        Outcome(0, r.stdout + ErrorSection(r.unicodeErrors, r.errorPaths), r.saved)
  }

  /** `main` with the scan's access errors kept for the error report. */
  function FixedMainOutcome(args: Args, fs: FileSystem, device: Device): (o: Outcome)
    ensures o.code == MainOutcome(args, fs, device).code
    ensures o.saved == MainOutcome(args, fs, device).saved
    ensures args.directory in fs.dirs && FailedFiles(EntriesOf(args, fs)) == [] ==>
      o == MainOutcome(args, fs, device)
  {
    if args.directory !in fs.dirs then Outcome(1, [NotADirectory(args.directory)], None)
    else
      var listed := Listed(args, fs);
      if listed == [] then Outcome(0, [NoFilesFound(args.directory)], None)
      else
        var r := ReportOf(listed, args, device);
        Outcome(0, r.stdout + ErrorSection(r.unicodeErrors, FailedFiles(EntriesOf(args, fs))), r.saved)
  }

  /** The scan `main` runs and the `-n` limit it applies to the result. */
  method ScanAndLimit(args: Args, fs: FileSystem) returns (fileSizes: seq<FileSize>, errorPaths: seq<Path>)
    requires args.directory in fs.dirs
    ensures fileSizes == Listed(args, fs)
    ensures errorPaths == FailedFiles(EntriesOf(args, fs))
  {
    fileSizes, errorPaths := FindLargestFiles(Traversal(fs.dirs[args.directory], !args.noRecursive));
    if args.num.Some? {
      fileSizes := TakePrefix(fileSizes, args.num.value);
    }
  }

  /** `main`, as written. */
  method Run(console: Console, args: Args, fs: FileSystem) returns (code: int)
    modifies console
    ensures var o := MainOutcome(args, fs, console.device);
      && code == o.code
      && console.stdout == old(console.stdout) + o.stdout
      && console.files == SaveInto(old(console.files), o.saved)
  {
    var directory := args.directory;
    if directory !in fs.dirs {
      console.Print(NotADirectory(directory));
      return 1;
    }
    var fileSizes, errorPaths := ScanAndLimit(args, fs);
    if fileSizes == [] {
      console.Print(NoFilesFound(directory));
      return 0;
    }
    var unicodeErrors;
    unicodeErrors, errorPaths := PrintFileSizes(console, fileSizes, args);
    if errorPaths != [] || unicodeErrors != [] {
      console.Print(ErrorReport(unicodeErrors, errorPaths));
    }
    return 0;
  }

  /** `main` with the reporter's always-empty list no longer overwriting the
      scan's access errors. */
  method RunFixed(console: Console, args: Args, fs: FileSystem) returns (code: int)
    modifies console
    ensures var o := FixedMainOutcome(args, fs, console.device);
      && code == o.code
      && console.stdout == old(console.stdout) + o.stdout
      && console.files == SaveInto(old(console.files), o.saved)
  {
    var directory := args.directory;
    if directory !in fs.dirs {
      console.Print(NotADirectory(directory));
      return 1;
    }
    var fileSizes, errorPaths := ScanAndLimit(args, fs);
    if fileSizes == [] {
      console.Print(NoFilesFound(directory));
      return 0;
    }
    var unicodeErrors, _ := PrintFileSizes(console, fileSizes, args);
    if errorPaths != [] || unicodeErrors != [] {
      console.Print(ErrorReport(unicodeErrors, errorPaths));
    }
    return 0;
  }

  /** When the argument is not a directory, the only output is the error
      naming it. */
  lemma ExitStatus(args: Args, fs: FileSystem, device: Device)
    ensures args.directory !in fs.dirs ==>
      MainOutcome(args, fs, device).stdout == [NotADirectory(args.directory)] && MainOutcome(args, fs, device).saved == None
  {
  }

  /** The first `n` entries of a list sorted largest first are its `n`
      largest: none left out is larger than one kept. */
  lemma TakePrefixKeepsLargest(s: seq<FileSize>, n: int, i: nat, j: nat)
    requires SortedDesc(s)
    requires i < |TakePrefix(s, n)| <= j < |s|
    ensures TakePrefix(s, n)[i].size >= s[j].size
  {
    assert TakePrefix(s, n)[i] == s[i];
  }

  /** With `-n N` for N >= 0, the listing is the N largest sized files (all of
      them when there are fewer), in the stable order of the scan. */
  lemma ListedAreTopN(args: Args, fs: FileSystem, n: nat)
    requires args.directory in fs.dirs && args.num == Some(n)
    ensures var sized := SizedFiles(EntriesOf(args, fs));
      var sorted := SortDesc(sized);
      && |sorted| == |sized|
      && |Listed(args, fs)| == (if n < |sized| then n else |sized|)
      && Listed(args, fs) == sorted[..|Listed(args, fs)|]
      && forall i, j :: 0 <= i < |Listed(args, fs)| <= j < |sorted| ==> Listed(args, fs)[i].size >= sorted[j].size
  {
    var sized := SizedFiles(EntriesOf(args, fs));
    var sorted := SortDesc(sized);
    SortDescSorted(sized);
    SortDescPermutation(sized);
    assert |multiset(sorted)| == |multiset(sized)|;
    forall i, j | 0 <= i < |Listed(args, fs)| <= j < |sorted|
      ensures Listed(args, fs)[i].size >= sorted[j].size
    {
      TakePrefixKeepsLargest(sorted, n, i, j);
    }
  }

  /** "No files found" is printed, and neither header nor table, exactly when
      the directory exists and the listing is empty. */
  lemma NoFilesFoundExactly(args: Args, fs: FileSystem, device: Device)
    ensures MainOutcome(args, fs, device).stdout == [NoFilesFound(args.directory)] <==>
      args.directory in fs.dirs && Listed(args, fs) == []
    ensures args.directory in fs.dirs && Listed(args, fs) == [] ==>
      MainOutcome(args, fs, device).code == 0 && MainOutcome(args, fs, device).saved == None
  {
    if args.directory in fs.dirs && Listed(args, fs) != [] {
      var r := ReportOf(Listed(args, fs), args, device);
      var out := MainOutcome(args, fs, device).stdout;
      assert r.stdout != [] && out[0] == r.stdout[0];
    }
  }

  /** As written, the error report is printed exactly when some line was shown
      lossily, and it never lists an inaccessible file. */
  lemma AccessErrorsNeverReported(args: Args, fs: FileSystem, device: Device)
    ensures forall line :: line in MainOutcome(args, fs, device).stdout && line.ErrorReport? ==> line.accessErrors == []
    ensures args.directory in fs.dirs && Listed(args, fs) != [] ==>
      var r := ReportOf(Listed(args, fs), args, device);
      MainOutcome(args, fs, device).stdout == r.stdout + (if r.unicodeErrors != [] then [ErrorReport(r.unicodeErrors, [])] else [])
  {
    if args.directory in fs.dirs && Listed(args, fs) != [] {
      var r := ReportOf(Listed(args, fs), args, device);
      var rejects := Rejects(device, DestinationOf(args));
      RowsMatchEntries(Listed(args, fs), args.humanReadable, rejects);
      assert forall line :: line in r.stdout ==> !line.ErrorReport?;
    }
  }

  /** A directory holding a readable one-byte file and an unreadable file: the
      scan records the unreadable one, yet the run as written prints the
      listing alone, with no error report. */
  lemma AccessErrorDroppedExample()
    ensures var entries := [Entry("d/a", true, Size(1)), Entry("d/b", true, OSError)];
      var fs := FileSystem(map["d" := Walk(entries, entries)]);
      var args := Args("d", None, false, false, None);
      && FailedFiles(entries) == ["d/b"]
      && MainOutcome(args, fs, Device({}, {}, {})).stdout == [Header, Row(Bytes(1), "d/a", false)]
  {
    var entries := [Entry("d/a", true, Size(1)), Entry("d/b", true, OSError)];
    assert entries[..1] == [Entry("d/a", true, Size(1))];
    assert entries[..1][..0] == [];
    assert SizedFiles(entries) == [FileSize(1, "d/a")];
    assert FailedFiles(entries) == ["d/b"];
    assert SortDesc([FileSize(1, "d/a")]) == [FileSize(1, "d/a")] by {
      assert [FileSize(1, "d/a")][..0] == [];
    }
    assert Rows([FileSize(1, "d/a")], false, {}) == [Row(Bytes(1), "d/a", false)] by {
      assert [FileSize(1, "d/a")][..0] == [];
    }
    assert EncodeFailures([FileSize(1, "d/a")], {}) == [] by {
      assert [FileSize(1, "d/a")][..0] == [];
    }
    var fs := FileSystem(map["d" := Walk(entries, entries)]);
    var args := Args("d", None, false, false, None);
    assert Listed(args, fs) == [FileSize(1, "d/a")];
    assert ReportOf([FileSize(1, "d/a")], args, Device({}, {}, {})).stdout == [Header, Row(Bytes(1), "d/a", false)];
  }

  /** With the fix, whenever the listing is printed, every file whose stat
      failed is named in the error report that ends the output. */
  lemma FixedReportsAccessErrors(args: Args, fs: FileSystem, device: Device)
    requires args.directory in fs.dirs && Listed(args, fs) != []
    requires FailedFiles(EntriesOf(args, fs)) != []
    ensures var out := FixedMainOutcome(args, fs, device).stdout;
      && out != []
      && out[|out| - 1].ErrorReport?
      && out[|out| - 1].accessErrors == FailedFiles(EntriesOf(args, fs))
  {
  }
}

=== FILE: reporter.dfy ===
/** `print_file_sizes`: the listing written to standard output or to the
    file named by `--output`, and the entries whose line could not be encoded. */
module Reporter {
  import opened Types
  import opened SizeFormat

  /** The size column of a listing line: plain bytes, or `format_size`'s value and unit. */
  datatype SizeField = Bytes(n: nat) | Readable(h: HumanSize)

  /** The lines the program prints or writes, by what they say. */
  datatype Line =
    | NotADirectory(directory: Path)
    | NoFilesFound(directory: Path)
    | CannotOpen(name: string)
    | Header
      /** A listing line; `lossy` when the path is shown through the replacement rendering. */
    | Row(field: SizeField, path: Path, lossy: bool)
    | SavedTo(name: string)
      /** The section written by `print_error_report`. */
    | ErrorReport(unicodeErrors: seq<FileSize>, accessErrors: seq<Path>)

  /** Where `write_line` sends the listing. */
  datatype Destination = Stdout | ToFile(name: string)

  /** What the environment decides about output: the file names `open(..., "w")`
      succeeds on, and the paths whose line the encoding of standard output
      or of a UTF-8 file rejects. */
  datatype Device = Device(openable: set<string>, stdoutRejects: set<Path>, fileRejects: set<Path>)

  /** The listing goes to the `--output` file when one is named; an empty name is falsy. */
  function DestinationOf(args: Args): Destination
  {
    if args.output.Some? && args.output.value != "" then ToFile(args.output.value) else Stdout
  }

  function Rejects(device: Device, dest: Destination): set<Path>
  {
    if dest.Stdout? then device.stdoutRejects else device.fileRejects
  }

  /** Whether writing `line` to `dest` goes through without a UnicodeEncodeError.
      Only a listing line that shows its path as it is can fail. */
  predicate Encodable(device: Device, dest: Destination, line: Line)
  {
    !(line.Row? && !line.lossy && line.path in Rejects(device, dest))
  }

  /** Standard output and the files written, with the device's verdicts. */
  class Console {
    const device: Device
    var stdout: seq<Line>
    var files: map<string, seq<Line>>

    constructor (device: Device)
      ensures this.device == device && stdout == [] && files == map[]
    {
      this.device := device;
      stdout := [];
      files := map[];
    }

    method Print(line: Line)
      modifies this
      ensures stdout == old(stdout) + [line] && files == old(files)
    {
      stdout := stdout + [line];
    }

    /** `open(name, "w")`: on success the file exists and is empty. */
    method Open(name: string) returns (ok: bool)
      modifies this
      ensures ok == (name in device.openable)
      ensures stdout == old(stdout)
      ensures files == if ok then old(files)[name := []] else old(files)
    {
      ok := name in device.openable;
      if ok {
        files := files[name := []];
      }
    }

    /** `write_line`: appends `line` to `dest`, or raises UnicodeEncodeError
        (`ok` false) and writes nothing. */
    method WriteLine(dest: Destination, line: Line) returns (ok: bool)
      requires dest.ToFile? ==> dest.name in files
      modifies this
      ensures ok == Encodable(device, dest, line)
      ensures stdout == if ok && dest.Stdout? then old(stdout) + [line] else old(stdout)
      ensures files == if ok && dest.ToFile? then old(files)[dest.name := old(files)[dest.name] + [line]] else old(files)
    {
      ok := Encodable(device, dest, line);
      if ok {
        match dest
        case Stdout => stdout := stdout + [line];
        case ToFile(name) => files := files[name := files[name] + [line]];
      }
    }
  }

  function SizeFieldOf(size: nat, humanReadable: bool): SizeField
  {
    if humanReadable then Readable(HumanOf(size)) else Bytes(size)
  }

  /** The listing lines for `fileSizes`, the rejected paths shown lossily. */
  function Rows(fileSizes: seq<FileSize>, humanReadable: bool, rejects: set<Path>): (r: seq<Line>)
    ensures |r| == |fileSizes|
    ensures forall line :: line in r ==> line.Row?
  {
    if fileSizes == [] then []
    else
      var f := fileSizes[|fileSizes| - 1];
      Rows(fileSizes[..|fileSizes| - 1], humanReadable, rejects)
        + [Row(SizeFieldOf(f.size, humanReadable), f.path, f.path in rejects)]
  }

  /** The entries whose line raised UnicodeEncodeError, in listing order. */
  function EncodeFailures(fileSizes: seq<FileSize>, rejects: set<Path>): (r: seq<FileSize>)
    ensures |r| <= |fileSizes|
  {
    if fileSizes == [] then []
    else
      var f := fileSizes[|fileSizes| - 1];
      EncodeFailures(fileSizes[..|fileSizes| - 1], rejects) + (if f.path in rejects then [f] else [])
  }

  datatype Saved = Saved(name: string, lines: seq<Line>)

  /** What one call of `print_file_sizes` does: the lines it prints, the file
      it writes, and the two lists it returns. */
  datatype Report = Report(stdout: seq<Line>, saved: Option<Saved>, unicodeErrors: seq<FileSize>, errorPaths: seq<Path>)

  function ReportOf(fileSizes: seq<FileSize>, args: Args, device: Device): (r: Report)
    ensures r.errorPaths == []
    ensures r.saved.Some? <==> DestinationOf(args).ToFile? && DestinationOf(args).name in device.openable
    ensures r.saved.Some? ==> r.saved.value.name == DestinationOf(args).name && r.stdout == [SavedTo(r.saved.value.name)]
    ensures |r.unicodeErrors| <= |fileSizes|
  {
    var dest := DestinationOf(args);
    var rejects := Rejects(device, dest);
    var listing := [Header] + Rows(fileSizes, args.humanReadable, rejects);
    var failures := EncodeFailures(fileSizes, rejects);
    match dest
    case Stdout => Report(listing, None, failures, [])
    case ToFile(name) =>
      if name in device.openable then Report([SavedTo(name)], Some(Saved(name, listing)), failures, [])
      else Report([CannotOpen(name)], None, [], [])
  }

  function SaveInto(files: map<string, seq<Line>>, saved: Option<Saved>): map<string, seq<Line>>
  {
    if saved.Some? then files[saved.value.name := saved.value.lines] else files
  }

  lemma UpdateTwice<K, V>(m: map<K, V>, k: K, a: V, b: V)
    ensures m[k := a][k := b] == m[k := b]
  {
  }

  /** The body of the listing loop for one entry: its line as it is, or, when
      that raises UnicodeEncodeError, its line with the path shown lossily.
      `failed` says the entry joins `unicode_errors`. */
  method WriteEntry(console: Console, dest: Destination, f: FileSize, humanReadable: bool)
    returns (failed: bool)
    requires dest.ToFile? ==> dest.name in console.files
    modifies console
    ensures failed == (f.path in Rejects(console.device, dest))
    ensures var row := Row(SizeFieldOf(f.size, humanReadable), f.path, failed);
      dest.Stdout? ==> console.stdout == old(console.stdout) + [row] && console.files == old(console.files)
    ensures var row := Row(SizeFieldOf(f.size, humanReadable), f.path, failed);
      dest.ToFile? ==>
        console.stdout == old(console.stdout) && console.files == old(console.files)[dest.name := old(console.files)[dest.name] + [row]]
  {
    var field := Bytes(f.size);
    if humanReadable {
      var h := FormatSize(f.size);
      field := Readable(h);
    }
    var ok := console.WriteLine(dest, Row(field, f.path, false));
    failed := !ok;
    if failed {
      ok := console.WriteLine(dest, Row(field, f.path, true));
    }
  }

  /** One more entry adds its line to the listing and, when rejected, itself
      to the encode failures. */
  lemma ListingStep(fileSizes: seq<FileSize>, i: nat, humanReadable: bool, rejects: set<Path>)
    requires i < |fileSizes|
    ensures var f := fileSizes[i];
      Rows(fileSizes[..i + 1], humanReadable, rejects)
        == Rows(fileSizes[..i], humanReadable, rejects) + [Row(SizeFieldOf(f.size, humanReadable), f.path, f.path in rejects)]
    ensures var f := fileSizes[i];
      EncodeFailures(fileSizes[..i + 1], rejects)
        == EncodeFailures(fileSizes[..i], rejects) + (if f.path in rejects then [f] else [])
  {
    assert fileSizes[..i + 1][..i] == fileSizes[..i];
  }

  /** Writes the header and then one line per entry, in order, to `dest`. */
  method WriteListing(console: Console, dest: Destination, fileSizes: seq<FileSize>, humanReadable: bool)
    returns (unicodeErrors: seq<FileSize>)
    requires dest.ToFile? ==> dest.name in console.files
    modifies console
    ensures unicodeErrors == EncodeFailures(fileSizes, Rejects(console.device, dest))
    ensures var listing := [Header] + Rows(fileSizes, humanReadable, Rejects(console.device, dest));
      dest.Stdout? ==> console.stdout == old(console.stdout) + listing && console.files == old(console.files)
    ensures var listing := [Header] + Rows(fileSizes, humanReadable, Rejects(console.device, dest));
      dest.ToFile? ==>
        console.stdout == old(console.stdout) && console.files == old(console.files)[dest.name := old(console.files)[dest.name] + listing]
  {
    ghost var stdout0, files0 := console.stdout, console.files;
    ghost var rejects := Rejects(console.device, dest);
    ghost var start := if dest.Stdout? then stdout0 else files0[dest.name];
    var ok := console.WriteLine(dest, Header);
    unicodeErrors := [];
    assert start + [Header] + Rows(fileSizes[..0], humanReadable, rejects) == start + [Header];
    if dest.ToFile? {
      UpdateTwice(files0, dest.name, [], start + [Header]);
    }
    for i := 0 to |fileSizes|
      invariant dest.ToFile? ==> dest.name in console.files
      invariant var written := start + [Header] + Rows(fileSizes[..i], humanReadable, rejects);
        if dest.Stdout? then console.stdout == written && console.files == files0
        else console.stdout == stdout0 && console.files == files0[dest.name := written]
      invariant unicodeErrors == EncodeFailures(fileSizes[..i], rejects)
    {
      ListingStep(fileSizes, i, humanReadable, rejects);
      ghost var rows := Rows(fileSizes[..i], humanReadable, rejects);
      ghost var written := start + [Header] + rows;
      var failed := WriteEntry(console, dest, fileSizes[i], humanReadable);
      if failed {
        unicodeErrors := unicodeErrors + [fileSizes[i]];
      }
      ghost var row := Row(SizeFieldOf(fileSizes[i].size, humanReadable), fileSizes[i].path, failed);
      assert start + [Header] + (rows + [row]) == written + [row];
      if dest.ToFile? {
        UpdateTwice(files0, dest.name, written, written + [row]);
      }
    }
    assert fileSizes[..|fileSizes|] == fileSizes;
    assert start + [Header] + Rows(fileSizes, humanReadable, rejects) == start + ([Header] + Rows(fileSizes, humanReadable, rejects));
  }

  /** `print_file_sizes`: opens the `--output` file when one is named, writes
      the listing, and returns the entries shown lossily together with an
      access-error list that is always empty. */
  method PrintFileSizes(console: Console, fileSizes: seq<FileSize>, args: Args)
    returns (unicodeErrors: seq<FileSize>, errorPaths: seq<Path>)
    modifies console
    ensures errorPaths == []
    ensures var r := ReportOf(fileSizes, args, console.device);
      && unicodeErrors == r.unicodeErrors
      && console.stdout == old(console.stdout) + r.stdout
      && console.files == SaveInto(old(console.files), r.saved)
  {
    unicodeErrors := [];
    errorPaths := [];
    var dest := DestinationOf(args);
    ghost var files0 := console.files;
    if dest.ToFile? {
      var isOpen := console.Open(dest.name);
      if !isOpen {
        console.Print(CannotOpen(dest.name));
        return;
      }
    }
    unicodeErrors := WriteListing(console, dest, fileSizes, args.humanReadable);
    if dest.ToFile? {
      ghost var listing := [Header] + Rows(fileSizes, args.humanReadable, Rejects(console.device, dest));
      assert [] + listing == listing;
      UpdateTwice(files0, dest.name, [], listing);
      console.Print(SavedTo(dest.name));
    }
  }

  /** One listing line per entry, in the entries' order, each lossy exactly
      when its path is rejected. */
  lemma {:induction false} RowsMatchEntries(fileSizes: seq<FileSize>, humanReadable: bool, rejects: set<Path>)
    ensures |Rows(fileSizes, humanReadable, rejects)| == |fileSizes|
    ensures forall i :: 0 <= i < |fileSizes| ==>
      Rows(fileSizes, humanReadable, rejects)[i]
        == Row(SizeFieldOf(fileSizes[i].size, humanReadable), fileSizes[i].path, fileSizes[i].path in rejects)
  {
    if fileSizes != [] {
      var n := |fileSizes| - 1;
      RowsMatchEntries(fileSizes[..n], humanReadable, rejects);
    }
  }

  /** `unicode_errors` holds exactly the listed entries whose path is rejected. */
  lemma {:induction false} EncodeFailuresExactly(fileSizes: seq<FileSize>, rejects: set<Path>, f: FileSize)
    ensures f in EncodeFailures(fileSizes, rejects) <==> f in fileSizes && f.path in rejects
  {
    if fileSizes != [] {
      var n := |fileSizes| - 1;
      EncodeFailuresExactly(fileSizes[..n], rejects, f);
      assert fileSizes == fileSizes[..n] + [fileSizes[n]];
    }
  }

  /** ... once for each line shown lossily. */
  lemma {:induction false} EncodeFailuresCount(fileSizes: seq<FileSize>, rejects: set<Path>)
    ensures |EncodeFailures(fileSizes, rejects)| == |set i | 0 <= i < |fileSizes| && fileSizes[i].path in rejects|
  {
    if fileSizes != [] {
      var n := |fileSizes| - 1;
      EncodeFailuresCount(fileSizes[..n], rejects);
      var before := set i | 0 <= i < n && fileSizes[..n][i].path in rejects;
      var after := set i | 0 <= i < |fileSizes| && fileSizes[i].path in rejects;
      if fileSizes[n].path in rejects {
        assert after == before + {n};
      } else {
        assert after == before;
      }
    }
  }

  /** Without an `--output` name, or with an empty one, the listing goes to
      standard output and nothing is saved; with a name that opens, the
      listing is saved under that name and standard output gets only the
      line saying so. */
  lemma OutputChoice(fileSizes: seq<FileSize>, args: Args, device: Device)
    ensures var r := ReportOf(fileSizes, args, device);
      (args.output.None? || args.output.value == "") ==>
        r.saved == None && |r.stdout| == |fileSizes| + 1 && r.stdout[0] == Header
    ensures var r := ReportOf(fileSizes, args, device);
      args.output.Some? && args.output.value in device.openable - {""} ==>
        && r.saved.Some? && r.saved.value.name == args.output.value
        && |r.saved.value.lines| == |fileSizes| + 1 && r.saved.value.lines[0] == Header
        && r.stdout == [SavedTo(args.output.value)]
  {
    RowsMatchEntries(fileSizes, args.humanReadable, Rejects(device, DestinationOf(args)));
  }

  /** When the `--output` file cannot be opened the reporter prints one error,
      writes nothing and returns two empty lists. */
  lemma ReportWhenOpenFails(fileSizes: seq<FileSize>, args: Args, device: Device)
    requires DestinationOf(args).ToFile? && DestinationOf(args).name !in device.openable
    ensures ReportOf(fileSizes, args, device) == Report([CannotOpen(DestinationOf(args).name)], None, [], [])
  {
  }

  /** Otherwise the destination receives the header and one line per entry in
      order, `unicode_errors` holds the entries shown lossily, and the
      access-error list returned is empty. */
  lemma {:induction false} ReportListing(fileSizes: seq<FileSize>, args: Args, device: Device)
    requires DestinationOf(args).Stdout? || DestinationOf(args).name in device.openable
    ensures var dest, r := DestinationOf(args), ReportOf(fileSizes, args, device);
      var rejects := Rejects(device, dest);
      var listing := if dest.Stdout? then r.stdout else r.saved.value.lines;
      && |listing| == |fileSizes| + 1
      && listing[0] == Header
      && (forall i :: 0 <= i < |fileSizes| ==>
            listing[i + 1] == Row(SizeFieldOf(fileSizes[i].size, args.humanReadable), fileSizes[i].path, fileSizes[i].path in rejects))
      && (forall f :: f in r.unicodeErrors <==> f in fileSizes && f.path in rejects)
      && r.errorPaths == []
  {
    var dest, r := DestinationOf(args), ReportOf(fileSizes, args, device);
    var rejects := Rejects(device, dest);
    var rows := Rows(fileSizes, args.humanReadable, rejects);
    var listing := if dest.Stdout? then r.stdout else r.saved.value.lines;
    assert listing == [Header] + rows;
    RowsMatchEntries(fileSizes, args.humanReadable, rejects);
    forall i | 0 <= i < |fileSizes| ensures listing[i + 1] == rows[i] {
    }
    forall f ensures f in EncodeFailures(fileSizes, rejects) <==> f in fileSizes && f.path in rejects {
      EncodeFailuresExactly(fileSizes, rejects, f);
    }
  }
}

=== FILE: scanner.dfy ===
/** `find_largest_files`: one pass over the traversal that sizes every regular
    file, collecting the files whose stat failed, then the sort by size. */
module Scanner {
  import opened Types
  import opened SizeOrder

  /** What one traversal entry adds to the sized files. */
  function SizedOf(e: Entry): seq<FileSize>
  {
    if e.isFile && e.stat.Size? then [FileSize(e.stat.bytes, e.path)] else []
  }

  /** What one traversal entry adds to the inaccessible files. */
  function FailedOf(e: Entry): seq<Path>
  {
    if e.isFile && e.stat.OSError? then [e.path] else []
  }

  /** The `(size, path)` pairs of the files whose stat succeeded, in traversal order. */
  function SizedFiles(entries: seq<Entry>): (r: seq<FileSize>)
    ensures |r| <= |entries|
  {
    if entries == [] then []
    else SizedFiles(entries[..|entries| - 1]) + SizedOf(entries[|entries| - 1])
  }

  /** The paths of the files whose stat raised OSError, in traversal order. */
  function FailedFiles(entries: seq<Entry>): (r: seq<Path>)
    ensures |r| <= |entries|
  {
    if entries == [] then []
    else FailedFiles(entries[..|entries| - 1]) + FailedOf(entries[|entries| - 1])
  }

  /** No two traversal entries name the same path. */
  ghost predicate DistinctPaths(entries: seq<Entry>)
  {
    forall i, j :: 0 <= i < j < |entries| ==> entries[i].path != entries[j].path
  }

  /** Scans the traversal `entries`: the sized files sorted by size, largest
      first and stable, and the inaccessible files in traversal order. */
  method FindLargestFiles(entries: seq<Entry>) returns (fileSizes: seq<FileSize>, errorPaths: seq<Path>)
    ensures fileSizes == SortDesc(SizedFiles(entries))
    ensures SortedDesc(fileSizes)
    ensures multiset(fileSizes) == multiset(SizedFiles(entries))
    ensures forall v :: WithSize(fileSizes, v) == WithSize(SizedFiles(entries), v)
    ensures errorPaths == FailedFiles(entries)
  {
    var sized: seq<FileSize> := [];
    errorPaths := [];
    var fileCount := 0;
    for i := 0 to |entries|
      invariant sized == SizedFiles(entries[..i])
      invariant errorPaths == FailedFiles(entries[..i])
      invariant fileCount == |sized|
    {
      assert entries[..i + 1][..i] == entries[..i];
      var path := entries[i].path;
      if entries[i].isFile {
        match entries[i].stat
        case Size(bytes) =>
          sized := sized + [FileSize(bytes, path)];
          fileCount := fileCount + 1;
        case OSError =>
          errorPaths := errorPaths + [path];
      }
    }
    assert entries[..|entries|] == entries;
    var a := new FileSize[|sized|](k requires 0 <= k < |sized| => sized[k]);
    assert a[..] == sized;
    SortBySizeDescending(a);
    fileSizes := a[..];
    assert fileCount == |fileSizes| by {
      SortDescPermutation(sized);
      assert |multiset(fileSizes)| == |multiset(sized)|;
    }
    SortDescSorted(sized);
    SortDescPermutation(sized);
    forall v ensures WithSize(fileSizes, v) == WithSize(sized, v) {
      SortDescStable(sized, v);
    }
  }

  lemma SizedSnoc(s: seq<Entry>, e: Entry)
    ensures SizedFiles(s + [e]) == SizedFiles(s) + SizedOf(e)
  {
    assert (s + [e])[..|s|] == s;
  }

  lemma FailedSnoc(s: seq<Entry>, e: Entry)
    ensures FailedFiles(s + [e]) == FailedFiles(s) + FailedOf(e)
  {
    assert (s + [e])[..|s|] == s;
  }

  lemma {:induction false} SizedAppend(a: seq<Entry>, b: seq<Entry>)
    ensures SizedFiles(a + b) == SizedFiles(a) + SizedFiles(b)
  {
    if b == [] {
      assert a + b == a;
    } else {
      var init, last := b[..|b| - 1], b[|b| - 1];
      assert b == init + [last];
      assert a + b == (a + init) + [last];
      SizedAppend(a, init);
      SizedSnoc(a + init, last);
      SizedSnoc(init, last);
    }
  }

  lemma {:induction false} FailedAppend(a: seq<Entry>, b: seq<Entry>)
    ensures FailedFiles(a + b) == FailedFiles(a) + FailedFiles(b)
  {
    if b == [] {
      assert a + b == a;
    } else {
      var init, last := b[..|b| - 1], b[|b| - 1];
      assert b == init + [last];
      assert a + b == (a + init) + [last];
      FailedAppend(a, init);
      FailedSnoc(a + init, last);
      FailedSnoc(init, last);
    }
  }

  /** The sized files are exactly the regular files whose stat succeeded. */
  lemma {:induction false} SizedFilesExactly(entries: seq<Entry>, f: FileSize)
    ensures f in SizedFiles(entries) <==>
      exists i :: 0 <= i < |entries| && entries[i] == Entry(f.path, true, Size(f.size))
  {
    if entries != [] {
      var n := |entries| - 1;
      SizedFilesExactly(entries[..n], f);
      if f in SizedFiles(entries) && f !in SizedFiles(entries[..n]) {
        assert entries[n] == Entry(f.path, true, Size(f.size));
      }
      if exists i :: 0 <= i < |entries| && entries[i] == Entry(f.path, true, Size(f.size)) {
        var i :| 0 <= i < |entries| && entries[i] == Entry(f.path, true, Size(f.size));
        if i < n {
          assert entries[..n][i] == entries[i];
        }
      }
    }
  }

  /** The error list holds exactly the regular files whose stat raised OSError. */
  lemma {:induction false} FailedFilesExactly(entries: seq<Entry>, p: Path)
    ensures p in FailedFiles(entries) <==>
      exists i :: 0 <= i < |entries| && entries[i] == Entry(p, true, OSError)
  {
    if entries != [] {
      var n := |entries| - 1;
      FailedFilesExactly(entries[..n], p);
      if exists i :: 0 <= i < |entries| && entries[i] == Entry(p, true, OSError) {
        var i :| 0 <= i < |entries| && entries[i] == Entry(p, true, OSError);
        if i < n {
          assert entries[..n][i] == entries[i];
        }
      }
    }
  }

  /** The positions of the regular files in a traversal. */
  ghost function FileIndices(entries: seq<Entry>): set<int>
  {
    set i | 0 <= i < |entries| && entries[i].isFile
  }

  lemma FileIndicesSnoc(entries: seq<Entry>)
    requires entries != []
    ensures var n := |entries| - 1;
      |FileIndices(entries)| == |FileIndices(entries[..n])| + if entries[n].isFile then 1 else 0
  {
    var n := |entries| - 1;
    if entries[n].isFile {
      assert FileIndices(entries) == FileIndices(entries[..n]) + {n};
    } else {
      assert FileIndices(entries) == FileIndices(entries[..n]);
    }
  }

  /** Every regular file lands in exactly one of the two lists. */
  lemma {:induction false} EveryFileAccountedOnce(entries: seq<Entry>)
    ensures |SizedFiles(entries)| + |FailedFiles(entries)| == |set i | 0 <= i < |entries| && entries[i].isFile|
  {
    if entries != [] {
      var n := |entries| - 1;
      EveryFileAccountedOnce(entries[..n]);
      assert SizedFiles(entries) == SizedFiles(entries[..n]) + SizedOf(entries[n]);
      assert FailedFiles(entries) == FailedFiles(entries[..n]) + FailedOf(entries[n]);
      assert |SizedOf(entries[n])| + |FailedOf(entries[n])| == if entries[n].isFile then 1 else 0;
      assert (set i | 0 <= i < n && entries[..n][i].isFile) == FileIndices(entries[..n]);
      FileIndicesSnoc(entries);
    }
  }

  /** When the traversal names each path once, no inaccessible path is also sized. */
  lemma {:induction false} ErrorsDisjointFromSized(entries: seq<Entry>, f: FileSize)
    requires DistinctPaths(entries)
    requires f in SizedFiles(entries)
    ensures f.path !in FailedFiles(entries)
  {
    SizedFilesExactly(entries, f);
    FailedFilesExactly(entries, f.path);
  }

  lemma ScanOne(e: Entry)
    ensures SizedFiles([e]) == SizedOf(e) && FailedFiles([e]) == FailedOf(e)
  {
    assert [e][..0] == [];
  }

  /** A directory, special file or other non-file entry changes neither list. */
  lemma {:induction false} NonFileIgnored(before: seq<Entry>, d: Entry, after: seq<Entry>)
    requires !d.isFile
    ensures SizedFiles(before + [d] + after) == SizedFiles(before + after)
    ensures FailedFiles(before + [d] + after) == FailedFiles(before + after)
  {
    var front := before + [d];
    assert before + [d] + after == front + after;
    ScanOne(d);
    SizedAppend(front, after);
    SizedAppend(before, [d]);
    SizedAppend(before, after);
    FailedAppend(front, after);
    FailedAppend(before, [d]);
    FailedAppend(before, after);
    assert SizedFiles(front) == SizedFiles(before);
    assert FailedFiles(front) == FailedFiles(before);
  }

  /** Files a.txt, b.txt and c.txt of 1, 2 and 3 bytes come out as c.txt, b.txt, a.txt. */
  lemma ThreeFilesExample()
    ensures var entries := [Entry("a.txt", true, Size(1)), Entry("b.txt", true, Size(2)), Entry("c.txt", true, Size(3))];
      SortDesc(SizedFiles(entries)) == [FileSize(3, "c.txt"), FileSize(2, "b.txt"), FileSize(1, "a.txt")]
  {
    var a, b, c := FileSize(1, "a.txt"), FileSize(2, "b.txt"), FileSize(3, "c.txt");
    var ea, eb, ec := Entry("a.txt", true, Size(1)), Entry("b.txt", true, Size(2)), Entry("c.txt", true, Size(3));
    SizedSnoc([], ea);
    SizedSnoc([ea], eb);
    SizedSnoc([ea, eb], ec);
    assert [] + [ea] == [ea] && [ea] + [eb] == [ea, eb] && [ea, eb] + [ec] == [ea, eb, ec];
    assert SizedFiles([ea, eb, ec]) == [a, b, c];
    assert [a, b, c][..2] == [a, b] && [a, b][..1] == [a] && [a][..0] == [];
    assert SortDesc([a]) == [a];
    assert SortDesc([a, b]) == Insert([a], b) == [b, a];
    assert Insert([b, a], c) == [c, b, a];
  }
}

=== FILE: size_format.dfy ===
/** `format_size`: the human-readable size, as a value scaled down by powers
    of 1024 and the unit it is counted in. Reals stand for Python's floats:
    dividing by 1024 is exact in binary floating point. */
module SizeFormat {

  /** The units `format_size` walks through, PB being the last. */
  const Units: seq<string> := ["B", "KB", "MB", "GB", "TB", "PB"]

  /** The index of PB in `Units`. */
  const Largest: nat := 5

  /** A human-readable size before its rendering with one fractional digit. */
  datatype HumanSize = HumanSize(scaled: real, unit: string)

  function Pow1024(k: nat): (p: nat)
    ensures p >= 1
  {
    if k == 0 then 1 else 1024 * Pow1024(k - 1)
  }

  lemma {:induction false} Pow1024Monotone(a: nat, b: nat)
    requires a <= b
    ensures Pow1024(a) <= Pow1024(b)
  {
    if a < b {
      Pow1024Monotone(a, b - 1);
    }
  }

  /** The unit the division loop stops at when it starts looking at unit `k`. */
  function UnitFrom(size: nat, k: nat): (u: nat)
    requires k <= Largest
    ensures k <= u <= Largest
    ensures u < Largest ==> size < Pow1024(u + 1)
    ensures forall j :: k < j <= u ==> Pow1024(j) <= size
    decreases Largest - k
  {
    if k == Largest || size < Pow1024(k + 1) then k else UnitFrom(size, k + 1)
  }

  /** The index in `Units` of the unit `format_size` picks for `size` bytes:
      the first whose next power of 1024 exceeds `size`, or PB. */
  function UnitIndex(size: nat): (k: nat)
    ensures k < |Units|
    ensures k < Largest ==> size < Pow1024(k + 1)
    ensures k > 0 ==> Pow1024(k) <= size
  {
    UnitFrom(size, 0)
  }

  /** `size` divided by 1024 `k` times, as the loop of `format_size` divides it. */
  function ScaledBy(size: nat, k: nat): (v: real)
    ensures v >= 0.0
    ensures size > 0 ==> v > 0.0
  {
    if k == 0 then size as real else ScaledBy(size, k - 1) / 1024.0
  }

  /** The value and unit `format_size` renders. */
  function HumanOf(size: nat): (h: HumanSize)
    ensures h.unit in Units
    ensures h.scaled >= 0.0
  {
    HumanSize(ScaledBy(size, UnitIndex(size)), Units[UnitIndex(size)])
  }

  /** Unit `k` is picked exactly for the sizes in [1024^k, 1024^(k+1)), the
      first unit taking everything below and the last everything above. */
  lemma UnitIndexExactly(size: nat, k: nat)
    requires k <= Largest
    ensures UnitIndex(size) == k <==>
      (k == 0 || Pow1024(k) <= size) && (k == Largest || size < Pow1024(k + 1))
  {
    var u := UnitIndex(size);
    if (k == 0 || Pow1024(k) <= size) && (k == Largest || size < Pow1024(k + 1)) {
      if u < k {
        Pow1024Monotone(u + 1, k);
      }
    }
  }

  /** A larger size never gets a smaller unit. */
  lemma UnitIndexMonotone(a: nat, b: nat)
    requires a <= b
    ensures UnitIndex(a) <= UnitIndex(b)
  {
    if UnitIndex(b) < UnitIndex(a) {
      Pow1024Monotone(UnitIndex(b) + 1, UnitIndex(a));
    }
  }

  /** Scaling is exact: the value counted in unit `k` times 1024^k is the size. */
  lemma {:induction false} ScaledByExact(size: nat, k: nat)
    ensures ScaledBy(size, k) * Pow1024(k) as real == size as real
  {
    if k > 0 {
      ScaledByExact(size, k - 1);
      assert Pow1024(k) as real == 1024.0 * Pow1024(k - 1) as real;
    }
  }

  lemma ProductCompare(value: real, p: nat, size: nat, c: real)
    requires p >= 1 && value * p as real == size as real
    ensures value < c <==> size as real < c * p as real
  {
    var d := value - c;
    assert d * p as real == value * p as real - c * p as real;
    if d < 0.0 {
      assert d * p as real < 0.0;
    } else {
      assert d * p as real >= 0.0;
    }
  }

  /** The loop's test `size < 1024.0` on the scaled value is a test on the byte count. */
  lemma ScaledByCompare(size: nat, k: nat)
    ensures ScaledBy(size, k) < 1024.0 <==> size < Pow1024(k + 1)
    ensures ScaledBy(size, k) >= 1.0 <==> Pow1024(k) <= size
  {
    ScaledByExact(size, k);
    ProductCompare(ScaledBy(size, k), Pow1024(k), size, 1024.0);
    ProductCompare(ScaledBy(size, k), Pow1024(k), size, 1.0);
  }

  /** The rendered value is the size in the chosen unit: at least 1 once a
      unit above B is chosen, and below 1024 for every unit but PB. */
  lemma HumanOfScaled(size: nat)
    ensures HumanOf(size).scaled * Pow1024(UnitIndex(size)) as real == size as real
    ensures UnitIndex(size) < Largest ==> HumanOf(size).scaled < 1024.0
    ensures size >= 1024 ==> HumanOf(size).scaled >= 1.0
  {
    ScaledByExact(size, UnitIndex(size));
    ScaledByCompare(size, UnitIndex(size));
  }

  /** Divides by 1024 until the value drops below 1024, stopping at PB. */
  method FormatSize(size: nat) returns (h: HumanSize)
    ensures h == HumanOf(size)
  {
    var value := size as real;
    var i := 0;
    while i < Largest
      invariant i <= Largest
      invariant value == ScaledBy(size, i)
      invariant UnitFrom(size, i) == UnitIndex(size)
    {
      ScaledByCompare(size, i);
      if value < 1024.0 {
        return HumanSize(value, Units[i]);
      }
      value := value / 1024.0;
      i := i + 1;
    }
    h := HumanSize(value, Units[Largest]);
  }
}

=== FILE: size_order.dfy ===
/** The order of the scan result: `file_sizes.sort(key=lambda pair: pair[0], reverse=True)`.
    Python's sort is stable also with `reverse=True`, so the result is the
    stable sort by size, largest first. */
module SizeOrder {
  import opened Types

  /** Sizes never increase from left to right. */
  ghost predicate SortedDesc(s: seq<FileSize>)
  {
    forall i, j :: 0 <= i < j < |s| ==> s[i].size >= s[j].size
  }

  /** The entries of `s` whose size is `v`, in the order of `s`. */
  function WithSize(s: seq<FileSize>, v: nat): seq<FileSize>
  {
    if s == [] then [] else (if s[0].size == v then [s[0]] else []) + WithSize(s[1..], v)
  }

  /** `t` is `s` sorted by size, largest first, with entries of equal size
      kept in their order in `s`. */
  ghost predicate IsStableSortDesc(t: seq<FileSize>, s: seq<FileSize>)
  {
    SortedDesc(t) && forall v :: WithSize(t, v) == WithSize(s, v)
  }

  /** Puts `x`, which comes after every entry of `t` in the input, behind every
      entry of `t` that is at least as large. */
  function Insert(t: seq<FileSize>, x: FileSize): (r: seq<FileSize>)
    ensures |r| == |t| + 1
  {
    if t == [] || t[0].size < x.size then [x] + t else [t[0]] + Insert(t[1..], x)
  }

  /** Insertion sort, taking the input's entries from first to last. */
  function SortDesc(s: seq<FileSize>): (r: seq<FileSize>)
    ensures |r| == |s|
  {
    if s == [] then [] else Insert(SortDesc(s[..|s| - 1]), s[|s| - 1])
  }

  lemma {:induction false} InsertMultiset(t: seq<FileSize>, x: FileSize)
    ensures multiset(Insert(t, x)) == multiset(t) + multiset{x}
  {
    if t == [] || t[0].size < x.size {
    } else {
      InsertMultiset(t[1..], x);
      assert t == [t[0]] + t[1..];
    }
  }

  /** `Insert` adds `x` and nothing else. */
  lemma {:induction false} InsertMembers(t: seq<FileSize>, x: FileSize, y: FileSize)
    requires y in Insert(t, x)
    ensures y == x || y in t
  {
    if !(t == [] || t[0].size < x.size) && y != t[0] {
      InsertMembers(t[1..], x, y);
    }
  }

  lemma {:induction false} InsertSorted(t: seq<FileSize>, x: FileSize)
    requires SortedDesc(t)
    ensures SortedDesc(Insert(t, x))
  {
    if t == [] || t[0].size < x.size {
    } else {
      var rest := Insert(t[1..], x);
      InsertSorted(t[1..], x);
      var r := [t[0]] + rest;
      forall i, j | 0 <= i < j < |r| ensures r[i].size >= r[j].size {
        if i == 0 {
          var y := rest[j - 1];
          InsertMembers(t[1..], x, y);
          if y != x {
            var k :| 0 <= k < |t[1..]| && t[1..][k] == y;
            assert t[k + 1] == y;
          }
        } else {
          assert r[i] == rest[i - 1] && r[j] == rest[j - 1];
        }
      }
    }
  }

  /** Where `Insert` puts `x` in a sequence split at `j` into entries at least
      as large as `x` and, from `j` on, a first entry that is smaller. */
  lemma {:induction false} InsertAt(t: seq<FileSize>, x: FileSize, j: nat)
    requires j <= |t|
    requires forall k :: 0 <= k < j ==> t[k].size >= x.size
    requires j < |t| ==> t[j].size < x.size
    ensures Insert(t, x) == t[..j] + [x] + t[j..]
  {
    if j == 0 {
      assert t[j..] == t;
    } else {
      InsertAt(t[1..], x, j - 1);
      assert t[..j] == [t[0]] + t[1..][..j - 1];
      assert t[j..] == t[1..][j - 1..];
    }
  }

  lemma {:induction false} SortDescSorted(s: seq<FileSize>)
    ensures SortedDesc(SortDesc(s))
  {
    if s != [] {
      SortDescSorted(s[..|s| - 1]);
      InsertSorted(SortDesc(s[..|s| - 1]), s[|s| - 1]);
    }
  }

  /** The sort neither loses nor invents entries. */
  lemma {:induction false} SortDescPermutation(s: seq<FileSize>)
    ensures multiset(SortDesc(s)) == multiset(s)
  {
    if s != [] {
      SortDescPermutation(s[..|s| - 1]);
      InsertMultiset(SortDesc(s[..|s| - 1]), s[|s| - 1]);
      assert s == s[..|s| - 1] + [s[|s| - 1]];
    }
  }

  lemma {:induction false} WithSizeAppend(a: seq<FileSize>, b: seq<FileSize>, v: nat)
    ensures WithSize(a + b, v) == WithSize(a, v) + WithSize(b, v)
  {
    if a == [] {
      assert a + b == b;
    } else {
      var head := if a[0].size == v then [a[0]] else [];
      assert (a + b)[0] == a[0];
      assert (a + b)[1..] == a[1..] + b;
      WithSizeAppend(a[1..], b, v);
      calc {
        WithSize(a + b, v);
        head + WithSize(a[1..] + b, v);
        head + (WithSize(a[1..], v) + WithSize(b, v));
        (head + WithSize(a[1..], v)) + WithSize(b, v);
        WithSize(a, v) + WithSize(b, v);
      }
    }
  }

  lemma {:induction false} WithSizeAbsent(t: seq<FileSize>, v: nat)
    requires forall k :: 0 <= k < |t| ==> t[k].size != v
    ensures WithSize(t, v) == []
  {
    if t != [] {
      WithSizeAbsent(t[1..], v);
    }
  }

  lemma {:induction false} WithSizeInsert(t: seq<FileSize>, x: FileSize, v: nat)
    requires SortedDesc(t)
    ensures WithSize(Insert(t, x), v) == WithSize(t, v) + (if x.size == v then [x] else [])
  {
    if t == [] {
    } else if t[0].size < x.size {
      assert Insert(t, x) == [x] + t;
      assert ([x] + t)[1..] == t;
      if x.size == v {
        WithSizeAbsent(t, v);
      }
    } else {
      WithSizeInsert(t[1..], x, v);
      assert ([t[0]] + Insert(t[1..], x))[1..] == Insert(t[1..], x);
    }
  }

  /** Entries of equal size keep their relative input order. */
  lemma {:induction false} SortDescStable(s: seq<FileSize>, v: nat)
    ensures WithSize(SortDesc(s), v) == WithSize(s, v)
  {
    if s != [] {
      var init, last := s[..|s| - 1], s[|s| - 1];
      SortDescStable(init, v);
      SortDescSorted(init);
      WithSizeInsert(SortDesc(init), last, v);
      assert s == init + [last];
      WithSizeAppend(init, [last], v);
    }
  }

  lemma {:induction false} WithSizeMember(s: seq<FileSize>, v: nat, x: FileSize)
    requires x in WithSize(s, v)
    ensures x in s && x.size == v
  {
    if s != [] && !(s[0].size == v && x == s[0]) {
      WithSizeMember(s[1..], v, x);
    }
  }

  lemma WithSizeHead(s: seq<FileSize>)
    requires s != []
    ensures WithSize(s, s[0].size) != []
  {
  }

  /** Two sequences sorted by size, largest first, that agree on the order of
      the entries of every size are equal. */
  lemma {:induction false} SortedDescUnique(t: seq<FileSize>, u: seq<FileSize>)
    requires SortedDesc(t) && SortedDesc(u)
    requires forall v :: WithSize(t, v) == WithSize(u, v)
    ensures t == u
  {
    if t == [] {
      if u != [] {
        WithSizeHead(u);
      }
    } else if u == [] {
      WithSizeHead(t);
    } else {
      var m, n := t[0].size, u[0].size;
      assert WithSize(u, n)[0] == u[0];
      WithSizeMember(t, n, WithSize(t, n)[0]);
      assert WithSize(t, m)[0] == t[0];
      WithSizeMember(u, m, WithSize(u, m)[0]);
      assert m == n;
      assert t[0] == u[0];
      forall v ensures WithSize(t[1..], v) == WithSize(u[1..], v) {
        var head := if m == v then [t[0]] else [];
        assert WithSize(t, v) == head + WithSize(t[1..], v);
        assert WithSize(u, v) == head + WithSize(u[1..], v);
        assert (head + WithSize(t[1..], v))[|head|..] == WithSize(t[1..], v);
        assert (head + WithSize(u[1..], v))[|head|..] == WithSize(u[1..], v);
      }
      SortedDescUnique(t[1..], u[1..]);
      assert t == [t[0]] + t[1..] && u == [u[0]] + u[1..];
    }
  }

  /** The sort is exactly the stable sort by size, largest first: its result
      is one, and it is the only one. */
  lemma SortDescIsTheStableSort(s: seq<FileSize>, t: seq<FileSize>)
    ensures IsStableSortDesc(t, s) <==> t == SortDesc(s)
  {
    SortDescSorted(s);
    forall v ensures WithSize(SortDesc(s), v) == WithSize(s, v) {
      SortDescStable(s, v);
    }
    if IsStableSortDesc(t, s) {
      SortedDescUnique(t, SortDesc(s));
    }
  }

  /** One step of the insertion sort: moves `a[i]` left past the smaller
      entries of the sorted prefix `a[..i]`. */
  method InsertLast(a: array<FileSize>, i: nat)
    requires i < a.Length
    requires SortedDesc(a[..i])
    modifies a
    ensures a[..i + 1] == Insert(old(a[..i]), old(a[i]))
    ensures a[i + 1..] == old(a[i + 1..])
  {
    ghost var sorted := a[..i];
    var x := a[i];
    var j := i;
    while j > 0 && a[j - 1].size < x.size
      invariant 0 <= j <= i
      invariant forall k :: 0 <= k < j ==> a[k] == sorted[k]
      invariant forall k :: j < k <= i ==> a[k] == sorted[k - 1]
      invariant forall k :: j <= k < i ==> sorted[k].size < x.size
      invariant forall k :: i < k < a.Length ==> a[k] == old(a[k])
    {
      a[j] := a[j - 1];
      j := j - 1;
    }
    a[j] := x;
    ShiftedIsInsert(a[..], sorted, x, i, j);
  }

  /** The array contents left by `InsertLast`, read as the result of `Insert`. */
  lemma ShiftedIsInsert(r: seq<FileSize>, sorted: seq<FileSize>, x: FileSize, i: nat, j: nat)
    requires j <= i == |sorted| < |r| && SortedDesc(sorted)
    requires forall k :: 0 <= k < j ==> r[k] == sorted[k]
    requires r[j] == x
    requires forall k :: j < k <= i ==> r[k] == sorted[k - 1]
    requires forall k :: j <= k < i ==> sorted[k].size < x.size
    requires j > 0 ==> sorted[j - 1].size >= x.size
    ensures r[..i + 1] == Insert(sorted, x)
  {
    forall k | 0 <= k < j ensures sorted[k].size >= x.size {
      assert sorted[k].size >= sorted[j - 1].size;
    }
    InsertAt(sorted, x, j);
    assert r[..i + 1] == sorted[..j] + [x] + sorted[j..];
  }

  /** Sorts `a` in place, stably, largest size first. */
  method SortBySizeDescending(a: array<FileSize>)
    modifies a
    ensures a[..] == SortDesc(old(a[..]))
  {
    ghost var input := a[..];
    for i := 0 to a.Length
      invariant a[..i] == SortDesc(input[..i])
      invariant a[i..] == input[i..]
    {
      SortDescSorted(input[..i]);
      InsertLast(a, i);
      assert input[..i + 1][..i] == input[..i];
    }
    assert input[..a.Length] == input;
  }
}

=== FILE: types.dfy ===
/** Values shared by the scanner, the reporter and the driver of find_largest_files. */
module Types {

  /** A filesystem path, treated as an opaque name. */
  type Path = string

  datatype Option<+T> = None | Some(value: T)

  /** What `path.stat()` gave for one file: its size in bytes, or an OSError. */
  datatype Stat = Size(bytes: nat) | OSError

  /** One entry yielded by the directory traversal (`rglob("*")` or `glob("*")`):
      its path, whether `is_file()` held, and what stat would give. */
  datatype Entry = Entry(path: Path, isFile: bool, stat: Stat)

  /** A `(size, path)` pair of the scan result. */
  datatype FileSize = FileSize(size: nat, path: Path)

  /** What the traversal of one directory yields: every descendant
      (`rglob`) or only the direct children (`glob`). */
  datatype Walk = Walk(descendants: seq<Entry>, children: seq<Entry>)

  /** The directories of the filesystem, each with its traversal. A path is a
      directory (`is_dir()`) exactly when it is a key of `dirs`. */
  datatype FileSystem = FileSystem(dirs: map<Path, Walk>)

  /** The parsed command line. */
  datatype Args = Args(
    directory: Path,
    num: Option<int>,
    humanReadable: bool,
    noRecursive: bool,
    output: Option<string>)
}
